=== FILE: README.md ===
# Health reminder scheduling core, in Dafny

This project models the reminder-scheduling core of the `HealthReminderApp`
desktop daemon (`main.py`). The daemon runs a loop that wakes every 100 ms.
Each iteration ("tick") does four things in order:

1. It reloads the configuration file if the file's modification time has moved forward.
2. It drives the Pomodoro cycle. The cycle has four phases: WORK, BREAK_PENDING,
   BREAK and REMIND_LATER. When Pomodoro is disabled, the tick hides the countdown instead.
3. It raises the water reminder once every configured interval.
4. It raises a meal reminder at each configured "HH:MM" minute.

Three user answers change the Pomodoro phase between ticks: "start break",
"remind me later" and "cancel break".

Layout:

- `settings.dfy` (`Settings`): the configuration record.
- `presentation.dfy` (`Presentation`): the display requests the core makes of
  the window layer. These are the countdown overlay, the break prompt, the
  full-screen break countdown and the full-screen messages.
- `countdown.dfy` (`Countdown`): remaining seconds written as `mm:ss`, and a
  parser that reads such a text back.
- `pomodoro.dfy` (`Pomodoro`): the phase timer, one tick's phase change
  (`Advance`), and runs of many ticks with no user event between them.
- `reminders.dfy` (`Reminders`): the reload, water and meal decisions.
- `scheduler.dfy` (`Scheduler`): the whole application state as a value. It
  defines one tick and the three user answers as functions, with the
  properties that relate them.
- `app.dfy` (`App`): the class `HealthReminderApp`. Its fields are those of the
  source: `config`, `pomodoroState`, `pomodoroDuration`, `pomodoroStartTime`,
  `waterStartTime`, `lastMealCheck` and `lastConfigMtime`. Its methods update
  them in place. Each method is proved to produce exactly the state and the
  requests of the matching `Scheduler` function.

Timestamps are whole seconds. The clock reading, the configuration file (its
modification time, or `None` when it does not exist, and the configuration it
holds) and the local "HH:MM" minute are parameters of a tick. Display calls
become `Request` values, which a tick or an event returns in the order made.

## Model

| member | source | states |
|---|---|---|
| `App.HealthReminderApp.constructor` | main.py:14-41 | Start-up is in WORK. The duration is `work_minutes*60` and the start time is the construction instant. The water baseline is that instant, the meal key is empty, and the configuration time is the file's time or 0 when there is no file. The countdown overlay exists iff Pomodoro is enabled at start-up. |
| `App.HealthReminderApp.Tick` | main.py:87-177 | One loop iteration leaves the fields and returns the requests that `Scheduler.Tick` gives for the old fields. It keeps the invariant that a BREAK is shown on an open break overlay. Its meal key is the corrected one (see Findings and Left out). |
| `App.HealthReminderApp.ReloadIfChanged` | main.py:91-97 | The configuration and its remembered time change only when the file exists and its time is strictly newer. |
| `App.HealthReminderApp.PomodoroCheck` | main.py:103-160 | The Pomodoro section, branch by branch as in the source, equals `Scheduler.PomodoroSection`. |
| `App.HealthReminderApp.CountdownPhaseCheck` | main.py:110-153 | A WORK or REMIND_LATER tick shows the countdown. When the phase has run out, it moves to BREAK_PENDING, hides the countdown and opens the prompt, all as `Scheduler.CountdownStep`. |
| `App.HealthReminderApp.BreakCheck` | main.py:125-138 | A BREAK tick updates the break countdown. When the break has run out, it starts WORK of `work_minutes*60` from now, closes the overlay and shows the work message, all as `Scheduler.BreakStep`. |
| `App.HealthReminderApp.WaterCheck` | main.py:162-169 | The water section equals `Scheduler.WaterSection`. |
| `App.HealthReminderApp.MealCheck` | main.py:171-177 | The meal section equals `Scheduler.MealSection`. It fires under the source's condition but stores the corrected key `Reminders.MealKey`, not the source's `Reminders.MealKeyAsWritten` (see Findings and Left out). |
| `App.HealthReminderApp.StartBreak` | main.py:189-193 | Sets BREAK with the current `break_minutes*60` seconds from the event instant and opens the break overlay. |
| `App.HealthReminderApp.CancelBreak` | main.py:195-201 | Sets WORK with the current `work_minutes*60` seconds from the event instant and closes the break overlay if it is open. |
| `App.HealthReminderApp.RemindLater` | main.py:203-206 | Sets REMIND_LATER for 300 seconds from the event instant, whatever the configuration says. |
| `Countdown.TimerText` | main.py:105-108 | The countdown text is digits, a colon, then exactly two digits of seconds. |
| `Countdown.Pad2` | main.py:108 | The `{:02d}` numeral has at least two characters, all digits (its value is `Countdown.Pad2Value`). |
| `Countdown.Split` | main.py:107 | The minutes and seconds of the remaining time satisfy `secs < 60` and `mins*60 + secs == remaining`. |
| `Countdown.Pad2Value` | main.py:108 | A two-digit zero-padded numeral denotes the number it was made from. |
| `Countdown.TimerTextRoundTrip` | main.py:105-108 | The `mm:ss` text parses back to exactly the remaining seconds. |
| `Countdown.TimerTextShape` | main.py:108 | Below 100 minutes the text has five characters with the colon in the middle. |
| `Pomodoro.Remaining` | main.py:105-106 | The remaining time is never negative. It is zero exactly when the phase has run out, and otherwise it is `duration - elapsed`. |
| `Pomodoro.Advance` | main.py:110-157 | One enabled tick changes nothing before the phase runs out. Only the end of a break restarts the clock. The phase becomes BREAK_PENDING exactly when it already was or the tick opens the prompt. BREAK and REMIND_LATER are never entered by a tick. |
| `Pomodoro.RemainingNonIncreasing` | main.py:105-106 | Within a phase the remaining time never grows as the clock advances. |
| `Pomodoro.AdvanceIdempotent` | main.py:110-157 | A second tick at the same instant changes no phase and opens no prompt, given a positive work length. |
| `Pomodoro.QuietRun` | main.py:110-157 | Ticks at which the phase has not run out change nothing and open no prompt. |
| `Pomodoro.PendingRun` | main.py:155-157 | In BREAK_PENDING any number of ticks changes nothing and opens no prompt. |
| `Pomodoro.RunUntilPrompt` | main.py:110-123 | From WORK or REMIND_LATER, a run of ticks ends in BREAK_PENDING with exactly one prompt iff some tick saw elapsed >= duration, keeping duration and start. Otherwise nothing changes and no prompt opens. REMIND_LATER never goes straight to WORK. |
| `Pomodoro.BreakEndsInWork` | main.py:125-138 | The first tick that sees a BREAK expired starts WORK with `work_minutes*60` seconds at that tick's instant. The rest of the run continues from there. |
| `Pomodoro.AtMostOnePrompt` | main.py:110-157 | However many ticks run between two user events, they open at most one break prompt. |
| `Reminders.NextConfigMtime` | main.py:92-97 | The remembered configuration time becomes the larger of the old and observed times. It grows exactly when a reload happens, and it never decreases. |
| `Reminders.ReloadOncePerChange` | main.py:92-97 | An unchanged file is not reloaded a second time. |
| `Reminders.NextWaterStart` | main.py:163-169 | The baseline changes only when the reminder fires, and then to the firing instant, so with a positive interval it is not due again at that instant. |
| `Reminders.WaterRestartsAtFiring` | main.py:163-169 | After firing, the water reminder is next due exactly one interval after the firing instant. |
| `Reminders.MealKeyAsWritten` | main.py:172-177 | The source's key (the as-written half of the Finding): it changes only when the reminder fires, and then to the fired minute, so the same minute does not fire again at once. |
| `Reminders.MealKey` | main.py:172-177 | The corrected key: empty or the current listed minute, empty on every unlisted minute, and the same minute does not fire again at once. |
| `Reminders.MealKeysAgreeOnListedMinutes` | main.py:172-177 | On a listed minute the corrected key equals the key as written. |
| `Reminders.MealFiresOnNewListedMinute` | main.py:172-177 | With the corrected key, a tick fires iff its minute is listed and the previous tick was at another minute, or at one not listed then. |
| `Reminders.MealAsWrittenOtherMinuteFires` | main.py:172-177 | As written, after a firing another listed minute still fires. |
| `Reminders.MealAsWrittenNeverRefires` | main.py:172-177 | As written, with one meal time, once it has fired no later run of minutes fires it again. |
| `Reminders.MealAsWrittenMissesNextDay` | main.py:172-177 | For timings {"12:30"} and minutes 12:30, 12:31, 12:30, the source fires once and the corrected key fires twice. With timings {"12:30", "18:00"} and no tick at 18:00, the source still fires once. |
| `Reminders.MealFiresOncePerVisit` | main.py:172-177 | With the corrected key, from start-up (empty key), the first visit to the meal minute fires exactly once, however many ticks fall in that minute. |
| `Reminders.MealFiresOnEveryVisit` | main.py:172-177 | With the corrected key and any key left by earlier days, including the meal itself, a visit to the meal minute after at least one tick at another minute fires exactly once. This is the case the source misses. |
| `Scheduler.Init` | main.py:14-34 | The start-up state satisfies the invariant and is WORK from now with the full work length remaining. The water baseline is now, the meal key is empty, the countdown overlay exists iff Pomodoro is enabled, and the break overlay is closed. The first tick does not reload an unchanged file, raises no water reminder before a whole interval, and fires every listed meal minute it meets. |
| `Scheduler.ReloadSection` | main.py:91-97 | Only the configuration and its remembered time change: the file's configuration iff its time is strictly newer. A second check of the same file reloads nothing. |
| `Scheduler.PomodoroSection` | main.py:103-160 | The Pomodoro step. Its contract is carried by `Scheduler.PomodoroSectionState` (new state), `Scheduler.PomodoroSectionRequests` (prompts), `Scheduler.CountdownTickShowsText` and `Scheduler.BreakTickUsesOverlay` (overlay requests), and `Scheduler.PomodoroSectionDisabled` (disabled case). |
| `Scheduler.CountdownStep` | main.py:110-123 | The WORK and REMIND_LATER step. Its contract is carried by `Scheduler.CountdownStepRequests` (exactly one prompt on expiry) and `Scheduler.CountdownTickShowsText` (the countdown text shown, then hidden before the prompt). |
| `Scheduler.CountdownStepRequests` | main.py:110-153 | The WORK or REMIND_LATER step opens exactly one prompt when the phase has run out and none otherwise. It never raises water or meal messages. |
| `Scheduler.BreakStep` | main.py:125-138 | The BREAK step. Its contract is carried by `Scheduler.BreakStepRequests` and `Scheduler.BreakTickUsesOverlay`. |
| `Scheduler.BreakStepRequests` | main.py:125-138 | The BREAK step opens no prompt and raises no water or meal message. |
| `Scheduler.WaterSection` | main.py:163-169 | One water message exactly when enabled and due. The baseline then becomes the tick's instant, and otherwise it is kept. With a positive interval it is not due again at that instant, and nothing else changes. |
| `Scheduler.MealSection` | main.py:172-177 | At most one meal message, exactly when enabled and the minute is listed and differs from the key. When enabled, the stored key is the corrected `Reminders.MealKey` (see Left out), and otherwise the key is kept. Afterwards the same minute does not fire again, and nothing else changes. |
| `Scheduler.Tick` | main.py:87-177 | One loop iteration: reload, Pomodoro, water, then meal. Its contract is carried by `Scheduler.TickState`, `Scheduler.TickRequests` and the lemmas after them. |
| `Scheduler.OnStartBreak` | main.py:189-193 | BREAK from the event instant with the configured break length remaining and the overlay open. The only request opens the break overlay, and nothing else changes. It keeps the invariant that a BREAK is shown on an open break overlay. |
| `Scheduler.OnCancelBreak` | main.py:195-201 | WORK from the event instant with the configured work length remaining. The overlay is closed, and the only request, made iff it was open, closes it. Nothing else changes. It keeps the invariant that a BREAK is shown on an open break overlay. |
| `Scheduler.OnRemindLater` | main.py:203-206 | REMIND_LATER from the event instant with 300 seconds remaining and no request. Nothing else changes. It keeps the invariant that a BREAK is shown on an open break overlay. |
| `Scheduler.InitStartsWork` | main.py:18-32 | The start-up state satisfies the invariant. It is a WORK timer of `work_minutes*60` seconds from the start instant, with the full length remaining. |
| `Scheduler.TickRequests` | main.py:87-177 | A tick's requests are the Pomodoro section's, then one water message exactly when water is enabled and due, then the meal section's. The configuration is fixed after the reload. |
| `Scheduler.TickKeepsInvariant` | main.py:125-138 | A tick keeps "BREAK implies the break overlay is open". |
| `Scheduler.TickTimer` | main.py:103-160 | A tick moves the timer as `Advance` says, with the work length from the configuration after the reload. With Pomodoro disabled the timer is untouched, so re-enabling resumes the phase. |
| `Scheduler.PomodoroSectionState` | main.py:103-160 | The Pomodoro section changes only the timer, as `Advance` says. It closes the break overlay exactly when an enabled BREAK runs out. |
| `Scheduler.PomodoroSectionRequests` | main.py:110-157 | The Pomodoro section opens the prompt iff it is enabled and WORK or REMIND_LATER has run out. It never raises the water or meal message. |
| `Scheduler.TickState` | main.py:87-177 | Gives every field after a tick: the reloaded configuration and time, the advanced timer, the water baseline, the corrected meal key (see Left out), and the break overlay closed when a break ends. |
| `Scheduler.PomodoroSectionSettled` | main.py:103-160 | A Pomodoro section whose timer has already settled changes nothing and raises no alert. |
| `Scheduler.TickPromptsOnEntry` | main.py:110-153 | A tick opens the prompt iff it moves WORK or REMIND_LATER into BREAK_PENDING. |
| `Scheduler.TickPromptCount` | main.py:110-153 | A tick holds exactly one `BreakPrompt` request when it moves WORK or REMIND_LATER into BREAK_PENDING, and none otherwise. |
| `Scheduler.TickWater` | main.py:162-169 | The water message is raised iff water is enabled and a whole interval has passed since the baseline. The baseline then becomes the tick's instant, and otherwise it is unchanged. |
| `Scheduler.TickMeal` | main.py:171-177 | The meal message is raised iff meals are enabled and the minute is listed and differs from the key. The key then becomes that minute. |
| `Scheduler.TickReload` | main.py:91-97 | The configuration becomes the file's iff the file's time is strictly newer. The remembered time never decreases. |
| `Scheduler.TickIdempotent` | main.py:87-177 | With positive durations, a second tick at the same instant, minute and file changes no state and raises no alert. |
| `Scheduler.StartBreakReadsCurrentConfig` | main.py:189-192 | "Start break" takes `break_minutes` from the configuration in force when it is clicked, including one reloaded while the prompt was pending. |
| `Scheduler.RemindLaterIsFiveMinutes` | main.py:203-206 | "Remind me later" gives a 300-second phase with 300 seconds remaining, whatever the configuration says. |
| `Scheduler.PomodoroCycle` | main.py:110-138 | With a 25/5 configuration: WORK of 1500 s from t=0, then BREAK_PENDING with a prompt at t=1500. "Start break" then gives a 300 s BREAK. At t=1800 the phase is WORK of 1500 s again, with the work message. |
| `Scheduler.BreakTickUsesOverlay` | main.py:125-138 | Under the invariant, an enabled BREAK tick first refreshes the break countdown. The tick that ends the break then closes the overlay and shows the work message. |
| `Scheduler.CountdownTickShowsText` | main.py:110-153 | With the countdown overlay present, an enabled WORK or REMIND_LATER tick first shows the mm:ss text of the remaining time, marked as work or not. The tick at which the phase runs out then hides the overlay and opens the prompt. |
| `Scheduler.PomodoroSectionDisabled` | main.py:158-160 | With Pomodoro disabled the section only hides the countdown overlay, if there is one, and changes no state. |
| `Scheduler.PendingTicks` | main.py:103-160 | From BREAK_PENDING, whole ticks leave the timer untouched and open no prompt, across reloads and Pomodoro being switched off and on. |
| `Scheduler.TicksPromptAtMostOnce` | main.py:87-181 | Any run of whole ticks between two user events holds at most one `BreakPrompt` request in all, across reloads and Pomodoro being switched off and on. |
| `Scheduler.RemindLaterCycle` | main.py:140-153 | From BREAK_PENDING, "remind me later" followed by a tick 300 s later returns to BREAK_PENDING with a new prompt, not to WORK. |

## Findings

| source | as written | input that shows it | evidently intended | confidence | as-written member | corrected member |
|---|---|---|---|---|---|---|
| main.py:172-177 | `last_meal_check` keeps the last minute that fired until a different listed minute fires. | timings {"12:30"}: the reminder fires at 12:30 on the first day and never again while the process runs, because every later 12:30 equals the key. | Each listed minute fires once per visit, so once a day. | medium, not executed | `Reminders.MealAsWrittenNeverRefires` | `Reminders.MealFiresOnEveryVisit` |

In the model, the key becomes the current minute when that minute is listed
and empty otherwise (`Reminders.MealKey`). `Scheduler.MealSection` and
`App.HealthReminderApp.MealCheck` use this corrected key. The source's key is
`Reminders.MealKeyAsWritten`. The two agree on every listed minute
(`Reminders.MealKeysAgreeOnListedMinutes`). They differ only in that the
corrected key forgets the fired minute once the clock leaves it. Two or more
meal times hide the defect only while every listed minute gets a tick each
day. A listed minute with no tick (the machine asleep, or meals disabled then)
leaves the key on the previous meal, and that meal's next visit stays silent.

## Left out

- Window and notification code in utils.py: the fullscreen message, the
  countdown overlay, the break prompt, the break overlay and toast
  notifications. These become `Request` values. Message texts and icon paths
  are reduced to the numbers and minutes they carry.
- The JSON load and save of the configuration. A tick receives the file's
  modification time and the configuration it holds.
- Missing sections or keys in the configuration document. The model's
  configuration is a total record, so a tick cannot fail. Inside the loop such a
  key raises an exception that the loop logs and swallows (main.py:178-181).
  The sections that ran before it keep their updates and the rest of the tick
  is skipped. The model does not capture this partial tick.
- `App.HealthReminderApp.constructor`: the source only starts when the
  configuration file exists and has a "pomodoro" section. Otherwise
  `load_config` returns an empty document (utils.py:12-15) and main.py:27 or 31
  raises `KeyError`. The model's constructor receives a complete configuration
  and does not model this failed start-up. Its `configMtime == None` case only
  arises when the file disappears between loading and the time check
  (main.py:15-23).
- Auto-start registration and its synchronisation at start-up (main.py:43-46).
  The tray icon and menu, the background thread, `on_quit` and the `running`
  flag (main.py:48-85, 208-212). All of these are operating-system and
  concurrency glue.
- The outer `while` loop, `root.update()` and the 100 ms sleep (main.py:88,
  183-187). A single tick is modelled. Runs of ticks are modelled as sequences
  of instants in `Pomodoro.Run` and as sequences of tick inputs in
  `Scheduler.RunTicks`.
- Floating-point clock readings and `int(remaining)`. Time is whole seconds, so
  the truncation is the identity.
- `App.HealthReminderApp.WaterCheck`: the source resets the water baseline
  with a second clock reading (main.py:168), taken microseconds after `now`.
  The model uses the tick's `now`.
- `App.HealthReminderApp.MealCheck`: stores the corrected key
  `Reminders.MealKey`, which is empty on every unlisted minute. The source
  changes the key only when the reminder fires (main.py:177,
  `Reminders.MealKeyAsWritten`). The firing condition is the source's. The
  stored key and the reminders that follow from it differ (see Findings).
- `App.HealthReminderApp.Tick`: inherits that difference through
  `Scheduler.MealSection`. No whole-tick property is proved with the key as
  written.
- `Scheduler.Tick`: runs `Scheduler.MealSection`, so it stores the corrected
  key rather than the source's.
- `Scheduler.MealSection`: stores `Reminders.MealKey`, which is empty on every
  unlisted minute. The source keeps the old key unless the reminder fires
  (main.py:177). The firing condition is the source's.
- `Scheduler.TickState`: gives `lastMealCheck` as the corrected key, not the
  source's key.
- The `last_reminders` dictionary (main.py:37-41, 169). It is written but
  never read.
- Logging `print` calls.

=== FILE: app.dfy ===
/**
  The application object: the fields the reminder loop and the user's
  callbacks update in place. Each method is proved to do exactly what the
  corresponding function of module Scheduler says, so the properties proved
  there hold of the object.
*/
module App {
  import opened Optional
  import opened Settings
  import opened Presentation
  import opened Countdown
  import opened Pomodoro
  import opened Reminders
  import Scheduler

  class HealthReminderApp {
    var config: Config
    var pomodoroState: Phase
    var pomodoroDuration: int       // seconds
    var pomodoroStartTime: int      // seconds
    var waterStartTime: int         // seconds
    var lastMealCheck: string       // "HH:MM" of the last meal reminder, "" at first
    var lastConfigMtime: int
    const hasCountdownOverlay: bool // the countdown overlay is made at start-up iff Pomodoro is enabled then
    var breakOverlayOpen: bool

    /** The object's fields as a value of Scheduler.State. */
    function Snapshot(): Scheduler.State
      reads this
    {
      Scheduler.State(config, Timer(pomodoroState, pomodoroDuration, pomodoroStartTime),
                      waterStartTime, lastMealCheck, lastConfigMtime, hasCountdownOverlay, breakOverlayOpen)
    }

    ghost predicate Valid()
      reads this
    {
      Scheduler.Invariant(Snapshot())
    }

    /** Start-up: the loaded configuration, the clock and the configuration file's time, if it exists. */
    constructor (loaded: Config, now: int, configMtime: Option<int>)
      ensures Valid()
      ensures Snapshot() == Scheduler.Init(loaded, now, configMtime)
      ensures pomodoroState == Work && pomodoroDuration == loaded.pomodoro.workMinutes * 60
      ensures pomodoroStartTime == now && waterStartTime == now && lastMealCheck == ""
      ensures lastConfigMtime == if configMtime.Some? then configMtime.value else 0
    {
      config := loaded;
      pomodoroStartTime := now;
      waterStartTime := now;
      lastMealCheck := "";
      lastConfigMtime := if configMtime.Some? then configMtime.value else 0;
      hasCountdownOverlay := loaded.pomodoro.enabled;
      pomodoroState := Work;
      pomodoroDuration := loaded.pomodoro.workMinutes * 60;
      breakOverlayOpen := false;
    }

    /** One iteration of the reminder loop; returns the display requests it made, in order. */
    method Tick(now: int, configMtime: Option<int>, fileConfig: Config, minute: string) returns (requests: seq<Request>)
      requires Valid()
      modifies this
      ensures Valid()
      ensures Scheduler.Outcome(Snapshot(), requests)
           == Scheduler.Tick(old(Snapshot()), Scheduler.TickInput(now, configMtime, fileConfig, minute))
    {
      Scheduler.TickKeepsInvariant(Snapshot(), Scheduler.TickInput(now, configMtime, fileConfig, minute));
      ReloadIfChanged(configMtime, fileConfig);
      var pomodoroRequests := PomodoroCheck(now);
      var waterRequests := WaterCheck(now);
      var mealRequests := MealCheck(minute);
      requests := pomodoroRequests + waterRequests + mealRequests;
    }

    /** Replaces the configuration when its file exists and its time moved forward. */
    method ReloadIfChanged(configMtime: Option<int>, fileConfig: Config)
      modifies this
      ensures Snapshot() == Scheduler.ReloadSection(old(Snapshot()), configMtime, fileConfig)
    {
      if configMtime.Some? {
        var currentMtime := configMtime.value;
        if currentMtime > lastConfigMtime {
          config := fileConfig;
          lastConfigMtime := currentMtime;
        }
      }
    }

    /** The Pomodoro section of a tick: countdown display and phase change. */
    method PomodoroCheck(now: int) returns (requests: seq<Request>)
      modifies this
      ensures Scheduler.Outcome(Snapshot(), requests) == Scheduler.PomodoroSection(old(Snapshot()), now)
    {
      requests := [];
      if config.pomodoro.enabled {
        var remaining := Remaining(Timer(pomodoroState, pomodoroDuration, pomodoroStartTime), now);
        var timerText := TimerText(remaining);
        if pomodoroState == Work {
          requests := CountdownPhaseCheck(now, timerText, true);
        } else if pomodoroState == Break {
          requests := BreakCheck(now, timerText);
        } else if pomodoroState == Phase.RemindLater {
          requests := CountdownPhaseCheck(now, timerText, false);
        }
        // in BREAK_PENDING the loop waits for the user
      } else if hasCountdownOverlay {
        requests := [HideCountdown];
      }
    }

    /** A WORK (isWork) or REMIND_LATER tick: both show the countdown and end in BREAK_PENDING with the prompt. */
    method CountdownPhaseCheck(now: int, timerText: string, isWork: bool) returns (requests: seq<Request>)
      modifies this
      ensures Scheduler.Outcome(Snapshot(), requests) == Scheduler.CountdownStep(old(Snapshot()), now, timerText, isWork)
    {
      requests := [];
      if hasCountdownOverlay {
        requests := requests + [ShowCountdown(timerText, isWork)];
      }
      if now - pomodoroStartTime >= pomodoroDuration {
        pomodoroState := BreakPending;
        if hasCountdownOverlay {
          requests := requests + [HideCountdown];
        }
        requests := requests + [BreakPrompt];
      }
    }

    /** A BREAK tick: update the break countdown; when it runs out, close it and start WORK. */
    method BreakCheck(now: int, timerText: string) returns (requests: seq<Request>)
      modifies this
      ensures Scheduler.Outcome(Snapshot(), requests) == Scheduler.BreakStep(old(Snapshot()), now, timerText)
    {
      requests := [];
      if breakOverlayOpen {
        requests := requests + [UpdateBreakCountdown(timerText)];
      }
      if now - pomodoroStartTime >= pomodoroDuration {
        pomodoroState := Work;
        pomodoroDuration := config.pomodoro.workMinutes * 60;
        pomodoroStartTime := now;
        if breakOverlayOpen {
          requests := requests + [CloseBreakOverlay];
          breakOverlayOpen := false;
        }
        requests := requests + [WorkMessage(config.pomodoro.workMinutes)];
      }
    }

    /** The water section of a tick. */
    method WaterCheck(now: int) returns (requests: seq<Request>)
      modifies this
      ensures Scheduler.Outcome(Snapshot(), requests) == Scheduler.WaterSection(old(Snapshot()), now)
    {
      requests := [];
      if config.water.enabled {
        var waterSeconds := config.water.intervalMinutes * 60;
        if now - waterStartTime >= waterSeconds {
          requests := [WaterMessage];
          waterStartTime := now;
        }
      }
    }

    /** The meal section of a tick, with the corrected key (see MealKey). */
    method MealCheck(minute: string) returns (requests: seq<Request>)
      modifies this
      ensures Scheduler.Outcome(Snapshot(), requests) == Scheduler.MealSection(old(Snapshot()), minute)
    {
      requests := [];
      if config.meals.enabled {
        if minute in config.meals.timings && minute != lastMealCheck {
          requests := [MealMessage(minute)];
        }
        lastMealCheck := if minute in config.meals.timings then minute else "";
      }
    }

    /** The user chose "start break". */
    method StartBreak(now: int) returns (requests: seq<Request>)
      requires Valid()
      modifies this
      ensures Valid()
      ensures pomodoroState == Break && pomodoroDuration == config.pomodoro.breakMinutes * 60
      ensures pomodoroStartTime == now
      ensures Scheduler.Outcome(Snapshot(), requests) == Scheduler.OnStartBreak(old(Snapshot()), now)
    {
      pomodoroState := Break;
      pomodoroDuration := config.pomodoro.breakMinutes * 60;
      pomodoroStartTime := now;
      breakOverlayOpen := true;
      requests := [OpenBreakOverlay];
    }

    /** The user chose "cancel break" on the break overlay. */
    method CancelBreak(now: int) returns (requests: seq<Request>)
      requires Valid()
      modifies this
      ensures Valid()
      ensures pomodoroState == Work && pomodoroDuration == config.pomodoro.workMinutes * 60
      ensures pomodoroStartTime == now
      ensures Scheduler.Outcome(Snapshot(), requests) == Scheduler.OnCancelBreak(old(Snapshot()), now)
    {
      pomodoroState := Work;
      pomodoroDuration := config.pomodoro.workMinutes * 60;
      pomodoroStartTime := now;
      requests := [];
      if breakOverlayOpen {
        requests := [CloseBreakOverlay];
        breakOverlayOpen := false;
      }
    }

    /** The user chose "remind me later". */
    method RemindLater(now: int) returns (requests: seq<Request>)
      requires Valid()
      modifies this
      ensures Valid()
      ensures pomodoroState == Phase.RemindLater && pomodoroDuration == 300
      ensures pomodoroStartTime == now
      ensures Scheduler.Outcome(Snapshot(), requests) == Scheduler.OnRemindLater(old(Snapshot()), now)
    {
      pomodoroState := Phase.RemindLater;
      pomodoroDuration := RemindLaterSeconds;
      pomodoroStartTime := now;
      requests := [];
    }
  }
}

=== FILE: countdown.dfy ===
/**
  The countdown text shown on the overlays: the remaining seconds of a phase,
  split into minutes and seconds and written "mm:ss", each part padded to two
  digits with zeros (minutes of 100 or more take as many digits as they need).
  ParseTimerText reads such a text back; the round trip shows that the text
  states exactly the remaining time.
*/
module Countdown {
  import opened Optional

  /** The quotient and remainder of dividing the remaining seconds by 60. */
  function Split(remaining: nat): (r: (nat, nat))
    ensures r.1 < 60
    ensures r.0 * 60 + r.1 == remaining
  {
    (remaining / 60, remaining % 60)
  }

  predicate IsDigit(c: char) {
    '0' <= c <= '9'
  }

  predicate AllDigits(s: string) {
    forall i :: 0 <= i < |s| ==> IsDigit(s[i])
  }

  function DigitChar(d: nat): (c: char)
    requires d < 10
    ensures IsDigit(c)
  {
    "0123456789"[d]
  }

  function DigitValue(c: char): nat
    requires IsDigit(c)
  {
    (c as int - '0' as int) as nat
  }

  lemma DigitValueOfChar(d: nat)
    requires d < 10
    ensures DigitValue(DigitChar(d)) == d
  {
  }

  /** The decimal numeral of n, without leading zeros. */
  function Decimal(n: nat): (s: string)
    ensures |s| >= 1
    ensures n >= 10 ==> |s| >= 2
    ensures AllDigits(s)
  {
    if n < 10 then [DigitChar(n)] else Decimal(n / 10) + [DigitChar(n % 10)]
  }

  /** The number a string of digits denotes. */
  function ValueOf(s: string): nat
    requires AllDigits(s)
  {
    if s == [] then 0 else ValueOf(s[..|s| - 1]) * 10 + DigitValue(s[|s| - 1])
  }

  /** A numeral zero-padded to at least two digits (Python's `{:02d}`). */
  function Pad2(n: nat): (s: string)
    ensures |s| >= 2 && AllDigits(s)
  {
    if n < 10 then "0" + Decimal(n) else Decimal(n)
  }

  /** The "mm:ss" text of a remaining time in seconds: digits, a colon, then exactly two digits. */
  function TimerText(remaining: nat): (r: string)
    ensures |r| >= 5 && r[|r| - 3] == ':'
    ensures AllDigits(r[..|r| - 3]) && AllDigits(r[|r| - 2..])
  {
    var (mins, secs) := Split(remaining);
    Pad2Short(secs);
    var m, s := Pad2(mins), Pad2(secs);
    assert (m + ":" + s)[..|m|] == m;
    assert (m + ":" + s)[|m| + 1..] == s;
    m + ":" + s
  }

  /** Reads back a countdown text: digits, a colon, two digits of seconds below 60. */
  function ParseTimerText(text: string): Option<nat> {
    var n := |text|;
    if n >= 4 && text[n - 3] == ':' && AllDigits(text[..n - 3]) && AllDigits(text[n - 2..]) then
      var secs := ValueOf(text[n - 2..]);
      if secs < 60 then Some(ValueOf(text[..n - 3]) * 60 + secs) else None
    else
      None
  }

  lemma {:induction false} DecimalValue(n: nat)
    ensures ValueOf(Decimal(n)) == n
    decreases n
  {
    if n < 10 {
      DigitValueOfChar(n);
    } else {
      var s := Decimal(n);
      assert s[..|s| - 1] == Decimal(n / 10);
      DecimalValue(n / 10);
      DigitValueOfChar(n % 10);
    }
  }

  lemma Pad2Value(n: nat)
    ensures ValueOf(Pad2(n)) == n
  {
    DecimalValue(n);
    if n < 10 {
      var s := Pad2(n);
      assert s[..|s| - 1] == "0";
      DigitValueOfChar(0);
      DigitValueOfChar(n);
    }
  }

  lemma Pad2Short(n: nat)
    requires n < 100
    ensures |Pad2(n)| == 2
  {
    if n >= 10 {
      assert Decimal(n / 10) == [DigitChar(n / 10)];
    }
  }

  /** The countdown text denotes exactly the remaining seconds. */
  lemma TimerTextRoundTrip(remaining: nat)
    ensures ParseTimerText(TimerText(remaining)) == Some(remaining)
  {
    var (mins, secs) := Split(remaining);
    var m, s := Pad2(mins), Pad2(secs);
    var text := TimerText(remaining);
    assert text == m + ":" + s;
    Pad2Short(secs);
    var n := |text|;
    assert text[..n - 3] == m;
    assert text[n - 2..] == s;
    Pad2Value(mins);
    Pad2Value(secs);
  }

  /** Below 100 minutes the countdown text is exactly five characters, "mm:ss". */
  lemma TimerTextShape(remaining: nat)
    requires remaining < 100 * 60
    ensures |TimerText(remaining)| == 5 && TimerText(remaining)[2] == ':'
  {
    var (mins, secs) := Split(remaining);
    Pad2Short(mins);
    Pad2Short(secs);
  }
}

=== FILE: optional.dfy ===
/** A value that may be absent: a missing configuration file, a text that does not parse. */
module Optional {
  datatype Option<+T> = None | Some(value: T)
}

=== FILE: pomodoro.dfy ===
/**
  The Pomodoro cycle: the phase, its length and the instant it began, and how
  one tick of the reminder loop moves between phases when Pomodoro is enabled.
  WORK ends in BREAK_PENDING (a prompt asks whether to start the break),
  BREAK ends in WORK, REMIND_LATER ends in BREAK_PENDING, and BREAK_PENDING
  waits for the user. The user's answers are the events in Scheduler.
*/
module Pomodoro {
  datatype Phase = Work | BreakPending | Break | RemindLater

  /** pomodoro_state, pomodoro_duration (seconds) and pomodoro_start_time (seconds). */
  datatype Timer = Timer(phase: Phase, duration: int, start: int)

  /** The length of a "remind me later" deferral, whatever the configuration says. */
  const RemindLaterSeconds: int := 5 * 60

  predicate Expired(t: Timer, now: int) {
    now - t.start >= t.duration
  }

  /** The seconds left in the phase, never negative. */
  function Remaining(t: Timer, now: int): (r: nat)
    ensures r >= t.duration - (now - t.start)
    ensures r == 0 || r == t.duration - (now - t.start)
    ensures r == 0 <==> Expired(t, now)
  {
    if t.duration - (now - t.start) > 0 then t.duration - (now - t.start) else 0
  }

  /**
    The phase change one enabled tick makes; workMinutes is read from the
    current configuration. Nothing changes before the phase runs out; only the
    end of a break restarts the clock; BREAK_PENDING is reached exactly by the
    ticks that open the prompt, and BREAK and REMIND_LATER only by user events.
  */
  function Advance(t: Timer, workMinutes: int, now: int): (r: Timer)
    ensures r != t ==> Expired(t, now)
    ensures t.phase != Break ==> r.duration == t.duration && r.start == t.start
    ensures r.phase == BreakPending <==> t.phase == BreakPending || PromptsAt(t, now)
    ensures r.phase == Break || r.phase == RemindLater ==> r == t
  {
    match t.phase
    case Work => if Expired(t, now) then t.(phase := BreakPending) else t
    case Break => if Expired(t, now) then Timer(Work, workMinutes * 60, now) else t
    case RemindLater => if Expired(t, now) then t.(phase := BreakPending) else t
    case BreakPending => t
  }

  /** Whether an enabled tick at `now` opens the break prompt. */
  predicate PromptsAt(t: Timer, now: int) {
    (t.phase == Work || t.phase == RemindLater) && Expired(t, now)
  }

  /** The timer after enabled ticks at the given instants, with no user event in between. */
  function Run(t: Timer, workMinutes: int, times: seq<int>): Timer
    decreases |times|
  {
    if times == [] then t else Run(Advance(t, workMinutes, times[0]), workMinutes, times[1..])
  }

  /** How many break prompts those ticks open. */
  function Prompts(t: Timer, workMinutes: int, times: seq<int>): nat
    decreases |times|
  {
    if times == [] then 0
    else (if PromptsAt(t, times[0]) then 1 else 0) + Prompts(Advance(t, workMinutes, times[0]), workMinutes, times[1..])
  }

  predicate ExpiresWithin(t: Timer, times: seq<int>) {
    exists i :: 0 <= i < |times| && Expired(t, times[i])
  }

  /** Within a phase the remaining time never grows as the clock advances. */
  lemma RemainingNonIncreasing(t: Timer, now: int, later: int)
    requires now <= later
    ensures Remaining(t, later) <= Remaining(t, now)
  {
  }

  /**
    A tick at the same instant as the one before changes nothing further and
    opens no second prompt (a break that just ended starts a WORK phase of
    positive length).
  */
  lemma AdvanceIdempotent(t: Timer, workMinutes: int, now: int)
    requires workMinutes > 0
    ensures Advance(Advance(t, workMinutes, now), workMinutes, now) == Advance(t, workMinutes, now)
    ensures !PromptsAt(Advance(t, workMinutes, now), now)
  {
  }

  /** Ticks at which the phase has not run out leave the timer as it is and open no prompt. */
  lemma {:induction false} QuietRun(t: Timer, workMinutes: int, times: seq<int>)
    requires !ExpiresWithin(t, times)
    ensures Run(t, workMinutes, times) == t
    ensures Prompts(t, workMinutes, times) == 0
    decreases |times|
  {
    if times != [] {
      assert !Expired(t, times[0]);
      assert !ExpiresWithin(t, times[1..]) by {
        forall i | 0 <= i < |times[1..]| ensures !Expired(t, times[1..][i]) {
          assert times[1..][i] == times[i + 1];
        }
      }
      QuietRun(t, workMinutes, times[1..]);
    }
  }

  /** BREAK_PENDING is left only by a user event: ticks change nothing and open no prompt. */
  lemma {:induction false} PendingRun(t: Timer, workMinutes: int, times: seq<int>)
    requires t.phase == BreakPending
    ensures Run(t, workMinutes, times) == t
    ensures Prompts(t, workMinutes, times) == 0
    decreases |times|
  {
    if times != [] {
      PendingRun(t, workMinutes, times[1..]);
    }
  }

  /**
    From WORK or REMIND_LATER, a run of ticks ends in BREAK_PENDING with one
    prompt exactly when some tick saw the phase run out, and otherwise leaves
    the timer untouched with no prompt. The length and start are kept either way,
    so REMIND_LATER never returns straight to WORK.
  */
  lemma {:induction false} RunUntilPrompt(t: Timer, workMinutes: int, times: seq<int>)
    requires t.phase == Work || t.phase == RemindLater
    ensures Run(t, workMinutes, times) == if ExpiresWithin(t, times) then t.(phase := BreakPending) else t
    ensures Prompts(t, workMinutes, times) == if ExpiresWithin(t, times) then 1 else 0
    decreases |times|
  {
    if times == [] {
    } else if Expired(t, times[0]) {
      PendingRun(t.(phase := BreakPending), workMinutes, times[1..]);
    } else {
      assert ExpiresWithin(t, times) <==> ExpiresWithin(t, times[1..]) by {
        if ExpiresWithin(t, times) {
          var i :| 0 <= i < |times| && Expired(t, times[i]);
          assert i > 0 && times[1..][i - 1] == times[i];
        }
        if ExpiresWithin(t, times[1..]) {
          var i :| 0 <= i < |times[1..]| && Expired(t, times[1..][i]);
          assert times[i + 1] == times[1..][i];
        }
      }
      RunUntilPrompt(t, workMinutes, times[1..]);
    }
  }

  /**
    A BREAK runs until the first tick that sees it expired; that tick starts a
    WORK phase of the configured length at its own instant, and the rest of the
    run continues from there.
  */
  lemma {:induction false} BreakEndsInWork(t: Timer, workMinutes: int, times: seq<int>, i: nat)
    requires t.phase == Break
    requires i < |times| && Expired(t, times[i])
    requires forall j :: 0 <= j < i ==> !Expired(t, times[j])
    ensures Run(t, workMinutes, times) == Run(Timer(Work, workMinutes * 60, times[i]), workMinutes, times[i + 1..])
    ensures Prompts(t, workMinutes, times) == Prompts(Timer(Work, workMinutes * 60, times[i]), workMinutes, times[i + 1..])
    decreases i
  {
    if i > 0 {
      assert !Expired(t, times[0]);
      var rest := times[1..];
      assert rest[i - 1] == times[i];
      assert rest[i..] == times[i + 1..];
      forall j | 0 <= j < i - 1 ensures !Expired(t, rest[j]) {
        assert rest[j] == times[j + 1];
      }
      BreakEndsInWork(t, workMinutes, rest, i - 1);
    }
  }

  /** However many ticks run between two user events, they open at most one break prompt. */
  lemma {:induction false} AtMostOnePrompt(t: Timer, workMinutes: int, times: seq<int>)
    ensures Prompts(t, workMinutes, times) <= 1
    decreases |times|
  {
    match t.phase
    case BreakPending => PendingRun(t, workMinutes, times);
    case Work => RunUntilPrompt(t, workMinutes, times);
    case RemindLater => RunUntilPrompt(t, workMinutes, times);
    case Break =>
      if times != [] {
        if Expired(t, times[0]) {
          RunUntilPrompt(Timer(Work, workMinutes * 60, times[0]), workMinutes, times[1..]);
        } else {
          AtMostOnePrompt(t, workMinutes, times[1..]);
        }
      }
  }
}

=== FILE: presentation.dfy ===
/**
  The display requests the scheduling core makes of the windowing layer.
  Windows themselves are not modelled: a tick or an event returns the
  requests it made, in the order it made them.
*/
module Presentation {
  datatype Request =
    | ShowCountdown(text: string, isWork: bool)  // update the small countdown overlay and show it
    | HideCountdown                               // hide the small countdown overlay
    | BreakPrompt                                 // open the "start break / remind me later" prompt
    | OpenBreakOverlay                            // open the full-screen break countdown
    | UpdateBreakCountdown(text: string)          // set the text of the full-screen break countdown
    | CloseBreakOverlay                           // close the full-screen break countdown
    | WorkMessage(workMinutes: int)               // full-screen "Time to work for N mins!"
    | WaterMessage                                // full-screen "Time to drink some water!"
    | MealMessage(minute: string)                 // full-screen "It's HH:MM! Time for your scheduled meal."

  /** A request that alerts the user, as opposed to one that only refreshes a countdown. */
  predicate IsAlert(r: Request) {
    r.BreakPrompt? || r.WorkMessage? || r.WaterMessage? || r.MealMessage?
  }
}

=== FILE: reminders.dfy ===
/**
  The decisions one tick makes besides the Pomodoro cycle: whether to reload
  the configuration, whether the water reminder is due, and whether the meal
  reminder fires for the current "HH:MM" minute.
*/
module Reminders {
  import opened Optional

  // ----- configuration reload -----

  /** Reload exactly when the configuration file exists and its modification time is strictly newer. */
  predicate ReloadDue(lastMtime: int, mtime: Option<int>) {
    mtime.Some? && mtime.value > lastMtime
  }

  /** last_config_mtime after the reload check: the larger of the remembered and the observed time. */
  function NextConfigMtime(lastMtime: int, mtime: Option<int>): (r: int)
    ensures mtime.None? ==> r == lastMtime
    ensures mtime.Some? ==> r >= lastMtime && r >= mtime.value && (r == lastMtime || r == mtime.value)
    ensures r > lastMtime <==> ReloadDue(lastMtime, mtime)
  {
    if ReloadDue(lastMtime, mtime) then mtime.value else lastMtime
  }

  /** Checking an unchanged file a second time reloads nothing. */
  lemma ReloadOncePerChange(lastMtime: int, mtime: Option<int>)
    ensures !ReloadDue(NextConfigMtime(lastMtime, mtime), mtime)
  {
  }

  // ----- water -----

  predicate WaterDue(waterStart: int, intervalMinutes: int, now: int) {
    now - waterStart >= intervalMinutes * 60
  }

  /** The water baseline after a tick: the firing instant when the reminder fires, else unchanged. */
  function NextWaterStart(waterStart: int, intervalMinutes: int, now: int): (r: int)
    ensures r != waterStart ==> WaterDue(waterStart, intervalMinutes, now) && r == now
    ensures intervalMinutes > 0 ==> !WaterDue(r, intervalMinutes, now)
  {
    if WaterDue(waterStart, intervalMinutes, now) then now else waterStart
  }

  /**
    After firing, the reminder is next due a whole interval after the firing
    instant (not after the old interval boundary), so it cannot fire twice
    within one interval.
  */
  lemma WaterRestartsAtFiring(waterStart: int, intervalMinutes: int, now: int, later: int)
    requires intervalMinutes > 0
    requires WaterDue(waterStart, intervalMinutes, now)
    ensures WaterDue(NextWaterStart(waterStart, intervalMinutes, now), intervalMinutes, later)
            <==> later >= now + intervalMinutes * 60
  {
  }

  // ----- meals -----

  /** The meal reminder fires for a listed minute that differs from the remembered key. */
  predicate MealDue(timings: set<string>, lastKey: string, minute: string) {
    minute in timings && minute != lastKey
  }

  /**
    last_meal_check after a tick as the source writes it: the minute that fired,
    and otherwise the old key, which is kept for ever.
  */
  function MealKeyAsWritten(timings: set<string>, lastKey: string, minute: string): (r: string)
    ensures r != lastKey ==> MealDue(timings, lastKey, minute) && r == minute
    ensures !MealDue(timings, r, minute)
  {
    if MealDue(timings, lastKey, minute) then minute else lastKey
  }

  /**
    The corrected key: the current minute when it is listed, and empty on an
    unlisted minute, so the key only ever suppresses the minute it fired in.
  */
  function MealKey(timings: set<string>, lastKey: string, minute: string): (r: string)
    ensures r == "" || (r == minute && r in timings)
    ensures minute !in timings ==> r == ""
    ensures !MealDue(timings, r, minute)
  {
    if minute in timings then minute else ""
  }

  /** On a listed minute the corrected key and the key as written agree. */
  lemma MealKeysAgreeOnListedMinutes(timings: set<string>, lastKey: string, minute: string)
    requires minute in timings
    ensures MealKey(timings, lastKey, minute) == MealKeyAsWritten(timings, lastKey, minute)
  {
  }

  /**
    With the corrected key, a tick at a listed minute fires exactly when the
    previous tick was at another minute or at a minute that was not listed then.
    Minutes are "HH:MM" strings, never empty.
  */
  lemma MealFiresOnNewListedMinute(previousTimings: set<string>, timings: set<string>, key: string, previous: string, minute: string)
    requires minute != ""
    ensures MealDue(timings, MealKey(previousTimings, key, previous), minute)
            <==> minute in timings && (minute != previous || previous !in previousTimings)
  {
  }

  /** As written, a listed minute other than the last one fired still fires. */
  lemma MealAsWrittenOtherMinuteFires(timings: set<string>, lastKey: string, minute: string, other: string)
    requires MealDue(timings, lastKey, minute)
    requires other in timings && other != minute
    ensures MealDue(timings, MealKeyAsWritten(timings, lastKey, minute), other)
  {
  }

  /** How many times the meal reminder fires as written over a run of minute ticks. */
  function MealFiresAsWritten(timings: set<string>, lastKey: string, minutes: seq<string>): nat
    decreases |minutes|
  {
    if minutes == [] then 0
    else (if MealDue(timings, lastKey, minutes[0]) then 1 else 0)
         + MealFiresAsWritten(timings, MealKeyAsWritten(timings, lastKey, minutes[0]), minutes[1..])
  }

  /** How many times it fires with the corrected key. */
  function MealFires(timings: set<string>, lastKey: string, minutes: seq<string>): nat
    decreases |minutes|
  {
    if minutes == [] then 0
    else (if MealDue(timings, lastKey, minutes[0]) then 1 else 0)
         + MealFires(timings, MealKey(timings, lastKey, minutes[0]), minutes[1..])
  }

  /**
    The defect: with a single meal time, once it has fired the key stays on it,
    so no later run of minutes (the next day's, say) fires the reminder again.
  */
  lemma {:induction false} MealAsWrittenNeverRefires(meal: string, minutes: seq<string>)
    ensures MealFiresAsWritten({meal}, meal, minutes) == 0
    decreases |minutes|
  {
    if minutes != [] {
      assert MealKeyAsWritten({meal}, meal, minutes[0]) == meal;
      MealAsWrittenNeverRefires(meal, minutes[1..]);
    }
  }

  /**
    The input that shows it: lunch at 12:30 fires on the first day, then not
    after a day's minutes. A second meal time does not help when its minute
    gets no tick (the machine asleep, or meals disabled then).
  */
  lemma MealAsWrittenMissesNextDay()
    ensures MealFiresAsWritten({"12:30"}, "", ["12:30", "12:31", "12:30"]) == 1
    ensures MealFiresAsWritten({"12:30", "18:00"}, "", ["12:30", "12:31", "12:30"]) == 1
    ensures MealFires({"12:30"}, "", ["12:30", "12:31", "12:30"]) == 2
  {
  }

  /**
    The intended behaviour, with the corrected key, from start-up (empty key):
    the first visit to the meal minute fires exactly once, however many ticks
    fall inside that minute. MealFiresOnEveryVisit extends this to later days.
  */
  lemma {:induction false} MealFiresOncePerVisit(meal: string, before: seq<string>, stay: nat, after: seq<string>)
    requires meal != ""
    requires forall i :: 0 <= i < |before| ==> before[i] != meal
    ensures MealFires({meal}, "", before + Repeat(meal, stay + 1) + after)
            == 1 + MealFires({meal}, meal, after)
    decreases |before|, stay
  {
    var T := {meal};
    if before != [] {
      assert (before + Repeat(meal, stay + 1) + after)[1..] == before[1..] + Repeat(meal, stay + 1) + after;
      assert MealKey(T, "", before[0]) == "";
      MealFiresOncePerVisit(meal, before[1..], stay, after);
    } else {
      assert before + Repeat(meal, stay + 1) + after == [meal] + (Repeat(meal, stay) + after);
      MealStaysQuiet(meal, stay, after);
    }
  }

  /**
    The same on any later day, whatever key the previous visits left: once the
    clock has been at another minute, the next visit to the meal minute fires
    exactly once. The key as written, left on the meal, never fires again
    (MealAsWrittenNeverRefires).
  */
  lemma MealFiresOnEveryVisit(meal: string, key: string, before: seq<string>, stay: nat, after: seq<string>)
    requires meal != "" && before != []
    requires forall i :: 0 <= i < |before| ==> before[i] != meal
    ensures MealFires({meal}, key, before + Repeat(meal, stay + 1) + after)
            == 1 + MealFires({meal}, meal, after)
  {
    assert (before + Repeat(meal, stay + 1) + after)[1..] == before[1..] + Repeat(meal, stay + 1) + after;
    assert MealKey({meal}, key, before[0]) == "";
    MealFiresOncePerVisit(meal, before[1..], stay, after);
  }

  /** Further ticks in the minute that just fired add nothing. */
  lemma {:induction false} MealStaysQuiet(meal: string, stay: nat, after: seq<string>)
    ensures MealFires({meal}, meal, Repeat(meal, stay) + after) == MealFires({meal}, meal, after)
    decreases stay
  {
    if stay > 0 {
      assert Repeat(meal, stay) + after == [meal] + (Repeat(meal, stay - 1) + after);
      MealStaysQuiet(meal, stay - 1, after);
    } else {
      assert Repeat(meal, stay) + after == after;
    }
  }

  function Repeat(minute: string, n: nat): (r: seq<string>)
    ensures |r| == n
    ensures forall i :: 0 <= i < n ==> r[i] == minute
  {
    if n == 0 then [] else [minute] + Repeat(minute, n - 1)
  }
}

=== FILE: scheduler.dfy ===
/**
  One iteration of the reminder loop and the three user events, as functions
  of the application's state. The class in module App performs them in place
  and is proved against these functions.

  A tick, in order: reload the configuration if its file changed; run the
  Pomodoro section (countdown display and phase change) or, when Pomodoro is
  disabled, hide the countdown; then the water check; then the meal check.
*/
module Scheduler {
  import opened Optional
  import opened Settings
  import opened Presentation
  import opened Countdown
  import opened Pomodoro
  import opened Reminders

  datatype State = State(
    config: Config,
    timer: Timer,
    waterStart: int,
    lastMealCheck: string,
    lastConfigMtime: int,
    countdownOverlay: bool,   // the small countdown overlay exists (made at start-up iff Pomodoro was enabled then)
    breakOverlayOpen: bool)   // the full-screen break countdown is open

  /** What a tick reads from the world: the clock, the configuration file and the wall-clock minute. */
  datatype TickInput = TickInput(
    now: int,
    configMtime: Option<int>,  // None when the configuration file does not exist
    fileConfig: Config,        // the configuration the file holds
    minute: string)            // the local time as "HH:MM"

  datatype Outcome = Outcome(state: State, requests: seq<Request>)

  /** A break is always shown on the full-screen overlay whose countdown the tick updates. */
  predicate Invariant(s: State) {
    s.timer.phase == Break ==> s.breakOverlayOpen
  }

  /**
    The state at start-up: a WORK phase of the configured length starting now.
    The first tick does not reload an unchanged file, raises no water reminder
    before a whole interval, and fires every listed meal minute it meets.
  */
  function Init(config: Config, now: int, configMtime: Option<int>): (r: State)
    ensures Invariant(r) && r.config == config
    ensures r.timer.phase == Work && r.timer.start == now
    ensures r.waterStart == now && r.lastMealCheck == ""
    ensures r.countdownOverlay == config.pomodoro.enabled && !r.breakOverlayOpen
    ensures Remaining(r.timer, now) == if config.pomodoro.workMinutes > 0 then config.pomodoro.workMinutes * 60 else 0
    ensures !ReloadDue(r.lastConfigMtime, configMtime)
    ensures config.water.intervalMinutes > 0 ==> !WaterDue(r.waterStart, config.water.intervalMinutes, now)
    ensures forall m :: m in config.meals.timings && m != "" ==> MealDue(config.meals.timings, r.lastMealCheck, m)
  {
    State(config, Timer(Work, config.pomodoro.workMinutes * 60, now), now, "",
          if configMtime.Some? then configMtime.value else 0,
          config.pomodoro.enabled, false)
  }

  // ----- the sections of a tick -----

  /** The reload step: only the configuration and its remembered time change, and a second check of the same file reloads nothing. */
  function ReloadSection(s: State, configMtime: Option<int>, fileConfig: Config): (r: State)
    ensures r.config == if ReloadDue(s.lastConfigMtime, configMtime) then fileConfig else s.config
    ensures r.lastConfigMtime == NextConfigMtime(s.lastConfigMtime, configMtime)
    ensures r.(config := s.config, lastConfigMtime := s.lastConfigMtime) == s
    ensures !ReloadDue(r.lastConfigMtime, configMtime)
  {
    if ReloadDue(s.lastConfigMtime, configMtime)
    then s.(config := fileConfig, lastConfigMtime := NextConfigMtime(s.lastConfigMtime, configMtime))
    else s
  }

  function CountdownRequests(s: State, text: string, isWork: bool): seq<Request> {
    if s.countdownOverlay then [ShowCountdown(text, isWork)] else []
  }

  function PromptRequests(s: State): seq<Request> {
    (if s.countdownOverlay then [HideCountdown] else []) + [BreakPrompt]
  }

  /** A WORK or REMIND_LATER tick: refresh the countdown, and on expiry hide it and open the break prompt. */
  function CountdownStep(s: State, now: int, text: string, isWork: bool): Outcome {
    if Expired(s.timer, now)
    then Outcome(s.(timer := s.timer.(phase := BreakPending)), CountdownRequests(s, text, isWork) + PromptRequests(s))
    else Outcome(s, CountdownRequests(s, text, isWork))
  }

  /** A BREAK tick: refresh the break countdown, and on expiry close it and start WORK with a message. */
  function BreakStep(s: State, now: int, text: string): Outcome {
    var update := if s.breakOverlayOpen then [UpdateBreakCountdown(text)] else [];
    if Expired(s.timer, now)
    then Outcome(s.(timer := Timer(Work, s.config.pomodoro.workMinutes * 60, now), breakOverlayOpen := false),
                 update + (if s.breakOverlayOpen then [CloseBreakOverlay] else []) + [WorkMessage(s.config.pomodoro.workMinutes)])
    else Outcome(s, update)
  }

  function PomodoroSection(s: State, now: int): Outcome {
    if !s.config.pomodoro.enabled then
      Outcome(s, if s.countdownOverlay then [HideCountdown] else [])
    else
      var text := TimerText(Remaining(s.timer, now));
      match s.timer.phase
      case Work => CountdownStep(s, now, text, true)
      case RemindLater => CountdownStep(s, now, text, false)
      case Break => BreakStep(s, now, text)
      case BreakPending => Outcome(s, [])
  }

  /** The water step: one message exactly when due, the baseline restarted, and nothing else changed. */
  function WaterSection(s: State, now: int): (r: Outcome)
    ensures var w := s.config.water;
      r.requests == if w.enabled && WaterDue(s.waterStart, w.intervalMinutes, now) then [WaterMessage] else []
    ensures var w := s.config.water;
      r.state.waterStart == if w.enabled && WaterDue(s.waterStart, w.intervalMinutes, now) then now else s.waterStart
    ensures r.state.(waterStart := s.waterStart) == s
    ensures s.config.water.enabled && s.config.water.intervalMinutes > 0
            ==> !WaterDue(r.state.waterStart, s.config.water.intervalMinutes, now)
  {
    var w := s.config.water;
    if w.enabled && WaterDue(s.waterStart, w.intervalMinutes, now)
    then Outcome(s.(waterStart := NextWaterStart(s.waterStart, w.intervalMinutes, now)), [WaterMessage])
    else Outcome(s, [])
  }

  /**
    The meal step: at most one message, exactly when enabled and the minute is
    due; the key (corrected, see MealKey) then keeps the same minute from firing
    again, and nothing else changes.
  */
  function MealSection(s: State, minute: string): (r: Outcome)
    ensures var m := s.config.meals;
      r.requests == if m.enabled && MealDue(m.timings, s.lastMealCheck, minute) then [MealMessage(minute)] else []
    ensures var m := s.config.meals;
      r.state.lastMealCheck == if m.enabled then MealKey(m.timings, s.lastMealCheck, minute) else s.lastMealCheck
    ensures r.state.(lastMealCheck := s.lastMealCheck) == s
    ensures s.config.meals.enabled ==> !MealDue(s.config.meals.timings, r.state.lastMealCheck, minute)
  {
    var m := s.config.meals;
    if !m.enabled then Outcome(s, [])
    else
      Outcome(s.(lastMealCheck := MealKey(m.timings, s.lastMealCheck, minute)),
              if MealDue(m.timings, s.lastMealCheck, minute) then [MealMessage(minute)] else [])
  }

  /** One iteration of the reminder loop. */
  function Tick(s: State, input: TickInput): Outcome {
    var s1 := ReloadSection(s, input.configMtime, input.fileConfig);
    var o2 := PomodoroSection(s1, input.now);
    var o3 := WaterSection(o2.state, input.now);
    var o4 := MealSection(o3.state, input.minute);
    Outcome(o4.state, o2.requests + o3.requests + o4.requests)
  }

  // ----- the user's answers -----

  /** "Start break": a BREAK of the current configuration's length from now, on a full-screen overlay. */
  function OnStartBreak(s: State, now: int): (r: Outcome)
    ensures Invariant(r.state) && r.state.breakOverlayOpen
    ensures r.state.timer.phase == Break && r.state.timer.start == now
    ensures Remaining(r.state.timer, now) == if s.config.pomodoro.breakMinutes > 0 then s.config.pomodoro.breakMinutes * 60 else 0
    ensures r.state.(timer := s.timer, breakOverlayOpen := s.breakOverlayOpen) == s
    ensures r.requests == [OpenBreakOverlay]
  {
    Outcome(s.(timer := Timer(Break, s.config.pomodoro.breakMinutes * 60, now), breakOverlayOpen := true),
            [OpenBreakOverlay])
  }

  /** "Cancel break": back to a WORK phase of the current configuration's length from now. */
  function OnCancelBreak(s: State, now: int): (r: Outcome)
    ensures Invariant(r.state) && !r.state.breakOverlayOpen
    ensures r.state.timer.phase == Work && r.state.timer.start == now
    ensures Remaining(r.state.timer, now) == if s.config.pomodoro.workMinutes > 0 then s.config.pomodoro.workMinutes * 60 else 0
    ensures r.state.(timer := s.timer, breakOverlayOpen := s.breakOverlayOpen) == s
    ensures r.requests == if s.breakOverlayOpen then [CloseBreakOverlay] else []
  {
    Outcome(s.(timer := Timer(Work, s.config.pomodoro.workMinutes * 60, now), breakOverlayOpen := false),
            if s.breakOverlayOpen then [CloseBreakOverlay] else [])
  }

  /** "Remind me later": a fixed five-minute REMIND_LATER phase from now. */
  function OnRemindLater(s: State, now: int): (r: Outcome)
    ensures Invariant(r.state)
    ensures r.state.timer.phase == RemindLater && r.state.timer.start == now
    ensures Remaining(r.state.timer, now) == 300
    ensures r.state.(timer := s.timer) == s && r.requests == []
  {
    Outcome(s.(timer := Timer(RemindLater, RemindLaterSeconds, now)), [])
  }

  // ----- properties -----

  function ConfigAfterReload(s: State, input: TickInput): Config {
    ReloadSection(s, input.configMtime, input.fileConfig).config
  }

  /** The state at start-up satisfies the invariant and starts a WORK phase of work_minutes*60 seconds. */
  lemma InitStartsWork(config: Config, now: int, configMtime: Option<int>)
    ensures var s := Init(config, now, configMtime);
      && Invariant(s)
      && s.timer == Timer(Work, config.pomodoro.workMinutes * 60, now)
      && Remaining(s.timer, now) == if config.pomodoro.workMinutes > 0 then config.pomodoro.workMinutes * 60 else 0
  {
  }

  /** The Pomodoro section changes only the timer, as Advance says, and closes the break overlay when a break ends. */
  lemma PomodoroSectionState(s: State, now: int)
    ensures var o := PomodoroSection(s, now);
      var p := s.config.pomodoro;
      o.state == s.(timer := if p.enabled then Advance(s.timer, p.workMinutes, now) else s.timer,
                    breakOverlayOpen := s.breakOverlayOpen && !(p.enabled && s.timer.phase == Break && Expired(s.timer, now)))
  {
  }

  /** It opens the prompt exactly when WORK or REMIND_LATER runs out, and never raises the water or meal message. */
  lemma PomodoroSectionRequests(s: State, now: int)
    ensures BreakPrompt in PomodoroSection(s, now).requests <==> s.config.pomodoro.enabled && PromptsAt(s.timer, now)
    ensures multiset(PomodoroSection(s, now).requests)[BreakPrompt]
         == if s.config.pomodoro.enabled && PromptsAt(s.timer, now) then 1 else 0
    ensures forall r :: r in PomodoroSection(s, now).requests ==> !r.WaterMessage? && !r.MealMessage?
  {
    if s.config.pomodoro.enabled {
      var text := TimerText(Remaining(s.timer, now));
      match s.timer.phase
      case Work => CountdownStepRequests(s, now, text, true);
      case RemindLater => CountdownStepRequests(s, now, text, false);
      case Break => BreakStepRequests(s, now, text);
      case BreakPending =>
    }
  }

  lemma CountdownStepRequests(s: State, now: int, text: string, isWork: bool)
    ensures BreakPrompt in CountdownStep(s, now, text, isWork).requests <==> Expired(s.timer, now)
    ensures multiset(CountdownStep(s, now, text, isWork).requests)[BreakPrompt] == if Expired(s.timer, now) then 1 else 0
    ensures forall r :: r in CountdownStep(s, now, text, isWork).requests ==> !r.WaterMessage? && !r.MealMessage?
  {
    var shown := CountdownRequests(s, text, isWork);
    assert BreakPrompt !in shown;
    if Expired(s.timer, now) {
      assert multiset(shown + PromptRequests(s)) == multiset(shown) + multiset(PromptRequests(s));
      assert multiset(PromptRequests(s))[BreakPrompt] == 1;
    }
  }

  lemma BreakStepRequests(s: State, now: int, text: string)
    ensures BreakPrompt !in BreakStep(s, now, text).requests
    ensures multiset(BreakStep(s, now, text).requests)[BreakPrompt] == 0
    ensures forall r :: r in BreakStep(s, now, text).requests ==> !r.WaterMessage? && !r.MealMessage?
  {
  }

  /** Where every field of the state stands after a tick. */
  lemma TickState(s: State, input: TickInput)
    ensures var c := ConfigAfterReload(s, input);
      var t := Tick(s, input).state;
      var waterFires := c.water.enabled && WaterDue(s.waterStart, c.water.intervalMinutes, input.now);
      && t.config == c
      && t.lastConfigMtime == NextConfigMtime(s.lastConfigMtime, input.configMtime)
      && t.timer == (if c.pomodoro.enabled then Advance(s.timer, c.pomodoro.workMinutes, input.now) else s.timer)
      && t.waterStart == (if waterFires then input.now else s.waterStart)
      && t.lastMealCheck == (if c.meals.enabled then MealKey(c.meals.timings, s.lastMealCheck, input.minute) else s.lastMealCheck)
      && t.countdownOverlay == s.countdownOverlay
      && t.breakOverlayOpen == (s.breakOverlayOpen && !(c.pomodoro.enabled && s.timer.phase == Break && Expired(s.timer, input.now)))
  {
    var s1 := ReloadSection(s, input.configMtime, input.fileConfig);
    PomodoroSectionState(s1, input.now);
  }

  /** Which requests of a tick come from which section. */
  lemma TickRequests(s: State, input: TickInput)
    ensures var s1 := ReloadSection(s, input.configMtime, input.fileConfig);
      var o2 := PomodoroSection(s1, input.now);
      var o3 := WaterSection(o2.state, input.now);
      && o2.state.config == s1.config && o2.state.waterStart == s.waterStart
      && o3.state.config == s1.config && o3.state.lastMealCheck == s.lastMealCheck
      && o3.requests == (if s1.config.water.enabled && WaterDue(s.waterStart, s1.config.water.intervalMinutes, input.now)
                         then [WaterMessage] else [])
      && Tick(s, input).requests == o2.requests + o3.requests + MealSection(o3.state, input.minute).requests
  {
    var s1 := ReloadSection(s, input.configMtime, input.fileConfig);
    PomodoroSectionState(s1, input.now);
  }

  lemma TickKeepsInvariant(s: State, input: TickInput)
    requires Invariant(s)
    ensures Invariant(Tick(s, input).state)
  {
    TickState(s, input);
  }

  /**
    The Pomodoro section moves the timer exactly as Advance says, reading the
    WORK length from the configuration in force after the reload; with
    Pomodoro disabled it leaves the timer as it was, so enabling it again
    resumes where the phase had got to.
  */
  lemma TickTimer(s: State, input: TickInput)
    ensures var c := ConfigAfterReload(s, input);
      Tick(s, input).state.timer
        == if c.pomodoro.enabled then Advance(s.timer, c.pomodoro.workMinutes, input.now) else s.timer
  {
    TickState(s, input);
  }

  /** A tick opens the break prompt exactly when it moves WORK or REMIND_LATER into BREAK_PENDING. */
  lemma TickPromptsOnEntry(s: State, input: TickInput)
    ensures var c := ConfigAfterReload(s, input);
      (BreakPrompt in Tick(s, input).requests) <==> c.pomodoro.enabled && PromptsAt(s.timer, input.now)
    ensures BreakPrompt in Tick(s, input).requests
        ==> s.timer.phase != BreakPending && Tick(s, input).state.timer.phase == BreakPending
  {
    var s1 := ReloadSection(s, input.configMtime, input.fileConfig);
    var o2 := PomodoroSection(s1, input.now);
    var o3 := WaterSection(o2.state, input.now);
    var o4 := MealSection(o3.state, input.minute);
    TickRequests(s, input);
    TickState(s, input);
    PomodoroSectionRequests(s1, input.now);
    assert BreakPrompt !in o3.requests && BreakPrompt !in o4.requests;
  }

  /** The tick that moves WORK or REMIND_LATER into BREAK_PENDING opens exactly one prompt; every other tick opens none. */
  lemma TickPromptCount(s: State, input: TickInput)
    ensures multiset(Tick(s, input).requests)[BreakPrompt]
         == if ConfigAfterReload(s, input).pomodoro.enabled && PromptsAt(s.timer, input.now) then 1 else 0
  {
    var s1 := ReloadSection(s, input.configMtime, input.fileConfig);
    var o2 := PomodoroSection(s1, input.now);
    var o3 := WaterSection(o2.state, input.now);
    var o4 := MealSection(o3.state, input.minute);
    TickRequests(s, input);
    PomodoroSectionRequests(s1, input.now);
    assert BreakPrompt !in o3.requests && BreakPrompt !in o4.requests;
    assert multiset(o2.requests + o3.requests + o4.requests)
        == multiset(o2.requests) + multiset(o3.requests) + multiset(o4.requests);
  }

  /** The water reminder fires exactly when enabled and a whole interval has passed, and restarts at that tick. */
  lemma TickWater(s: State, input: TickInput)
    ensures var c := ConfigAfterReload(s, input);
      var fires := c.water.enabled && WaterDue(s.waterStart, c.water.intervalMinutes, input.now);
      && (WaterMessage in Tick(s, input).requests <==> fires)
      && Tick(s, input).state.waterStart == if fires then input.now else s.waterStart
  {
    var s1 := ReloadSection(s, input.configMtime, input.fileConfig);
    var o2 := PomodoroSection(s1, input.now);
    var o3 := WaterSection(o2.state, input.now);
    var o4 := MealSection(o3.state, input.minute);
    TickRequests(s, input);
    TickState(s, input);
    PomodoroSectionRequests(s1, input.now);
    assert WaterMessage !in o2.requests && WaterMessage !in o4.requests;
  }

  /** The meal reminder fires exactly when enabled and the minute is listed and differs from the key. */
  lemma TickMeal(s: State, input: TickInput)
    ensures var c := ConfigAfterReload(s, input);
      var fires := c.meals.enabled && MealDue(c.meals.timings, s.lastMealCheck, input.minute);
      && (MealMessage(input.minute) in Tick(s, input).requests <==> fires)
      && (fires ==> Tick(s, input).state.lastMealCheck == input.minute)
  {
    var s1 := ReloadSection(s, input.configMtime, input.fileConfig);
    var o2 := PomodoroSection(s1, input.now);
    var o3 := WaterSection(o2.state, input.now);
    TickRequests(s, input);
    TickState(s, input);
    PomodoroSectionRequests(s1, input.now);
    PomodoroSectionState(s1, input.now);
    assert MealMessage(input.minute) !in o2.requests && MealMessage(input.minute) !in o3.requests;
  }

  /** The configuration is replaced only by a newer file, and the remembered time never goes back. */
  lemma TickReload(s: State, input: TickInput)
    ensures Tick(s, input).state.lastConfigMtime >= s.lastConfigMtime
    ensures Tick(s, input).state.config
        == if ReloadDue(s.lastConfigMtime, input.configMtime) then input.fileConfig else s.config
  {
    TickState(s, input);
  }

  /** A Pomodoro section whose timer has already settled at `now` changes nothing and alerts nobody. */
  lemma PomodoroSectionSettled(s: State, now: int)
    requires s.config.pomodoro.enabled ==> Advance(s.timer, s.config.pomodoro.workMinutes, now) == s.timer
    ensures PomodoroSection(s, now).state == s
    ensures forall r :: r in PomodoroSection(s, now).requests ==> !IsAlert(r)
  {
    PomodoroSectionState(s, now);
  }

  /**
    Ticking twice at the same instant (same minute, same file) is the same as
    ticking once: the second tick changes no state and makes no alert, only
    countdown refreshes. Needs a positive WORK length and water interval.
  */
  lemma TickIdempotent(s: State, input: TickInput)
    requires PositiveDurations(s.config) && PositiveDurations(input.fileConfig)
    ensures var first := Tick(s, input);
      var second := Tick(first.state, input);
      && second.state == first.state
      && forall r :: r in second.requests ==> !IsAlert(r)
  {
    var now, minute := input.now, input.minute;
    var c := ConfigAfterReload(s, input);
    assert PositiveDurations(c);
    var t := Tick(s, input).state;
    TickState(s, input);
    ReloadOncePerChange(s.lastConfigMtime, input.configMtime);
    assert ReloadSection(t, input.configMtime, input.fileConfig) == t;

    AdvanceIdempotent(s.timer, c.pomodoro.workMinutes, now);
    PomodoroSectionSettled(t, now);
    var o2 := PomodoroSection(t, now);

    assert !(c.water.enabled && WaterDue(t.waterStart, c.water.intervalMinutes, now));
    var o3 := WaterSection(o2.state, now);
    assert o3 == Outcome(t, []);

    var o4 := MealSection(o3.state, minute);
    assert o4 == Outcome(t, []);
    assert Tick(t, input) == Outcome(t, o2.requests + [] + []);
  }

  /** "Start break" takes the break length from the configuration in force when it is clicked. */
  lemma StartBreakReadsCurrentConfig(s: State, input: TickInput, now: int)
    ensures OnStartBreak(Tick(s, input).state, now).state.timer
        == Timer(Break, ConfigAfterReload(s, input).pomodoro.breakMinutes * 60, now)
  {
    TickState(s, input);
  }

  /** "Remind me later" defers for 300 seconds whatever the configuration says. */
  lemma RemindLaterIsFiveMinutes(s: State, now: int)
    ensures OnRemindLater(s, now).state.timer == Timer(RemindLater, 300, now)
    ensures Remaining(OnRemindLater(s, now).state.timer, now) == 300
  {
  }

  function Quiet(now: int, config: Config): TickInput {
    TickInput(now, Some(0), config, "09:00")
  }

  /**
    A full cycle with 25-minute work and 5-minute breaks: WORK from t=0, the
    prompt at t=1500, a 300-second BREAK from the click, and WORK of 1500
    seconds again at t=1800, with the "time to work" message.
  */
  lemma PomodoroCycle()
    ensures var c := Config(PomodoroSettings(true, 25, 5), WaterSettings(false, 30), MealSettings(false, {}), false);
      var s0 := Init(c, 0, Some(0));
      var t1 := Tick(s0, Quiet(1500, c));
      var b := OnStartBreak(t1.state, 1500);
      var t2 := Tick(b.state, Quiet(1800, c));
      && s0.timer == Timer(Work, 1500, 0)
      && t1.state.timer.phase == BreakPending && BreakPrompt in t1.requests
      && b.state.timer == Timer(Break, 300, 1500) && Remaining(b.state.timer, 1500) == 300
      && t2.state.timer == Timer(Work, 1500, 1800) && WorkMessage(25) in t2.requests
  {
  }

  /** "Remind me later" then 300 seconds: back to BREAK_PENDING with a new prompt, not to WORK. */
  lemma RemindLaterCycle(s: State, now: int)
    requires s.config.pomodoro.enabled && s.timer.phase == BreakPending
    ensures var r := OnRemindLater(s, now);
      var t := Tick(r.state, TickInput(now + 300, None, s.config, "09:00"));
      && t.state.timer == Timer(BreakPending, 300, now)
      && BreakPrompt in t.requests
  {
    var r := OnRemindLater(s, now);
    var t := Tick(r.state, TickInput(now + 300, None, s.config, "09:00"));
    TickPromptsOnEntry(r.state, TickInput(now + 300, None, s.config, "09:00"));
  }

  /**
    The invariant at work: during a BREAK the full-screen overlay is open, so an
    enabled tick always begins by refreshing its countdown, and the tick that
    ends the break always closes it before the work message.
  */
  lemma BreakTickUsesOverlay(s: State, input: TickInput)
    requires Invariant(s) && s.timer.phase == Break
    requires ConfigAfterReload(s, input).pomodoro.enabled
    ensures var r := Tick(s, input).requests;
      var text := TimerText(Remaining(s.timer, input.now));
      && |r| >= 1 && r[0] == UpdateBreakCountdown(text)
      && (Expired(s.timer, input.now)
          ==> |r| >= 3 && r[1] == CloseBreakOverlay && r[2] == WorkMessage(ConfigAfterReload(s, input).pomodoro.workMinutes))
  {
    var s1 := ReloadSection(s, input.configMtime, input.fileConfig);
    var text := TimerText(Remaining(s.timer, input.now));
    TickRequests(s, input);
    assert s1.timer == s.timer && s1.breakOverlayOpen;
    var o2 := PomodoroSection(s1, input.now);
    assert o2 == BreakStep(s1, input.now, text);
    if Expired(s.timer, input.now) {
      assert o2.requests == [UpdateBreakCountdown(text), CloseBreakOverlay, WorkMessage(s1.config.pomodoro.workMinutes)];
    } else {
      assert o2.requests == [UpdateBreakCountdown(text)];
    }
  }

  /**
    An enabled WORK or REMIND_LATER tick shows the mm:ss text of the remaining
    time on the countdown overlay, marked as work or not; the tick at which the
    phase runs out then hides the overlay and opens the prompt.
  */
  lemma CountdownTickShowsText(s: State, input: TickInput)
    requires s.timer.phase == Work || s.timer.phase == RemindLater
    requires s.countdownOverlay && ConfigAfterReload(s, input).pomodoro.enabled
    ensures var r := Tick(s, input).requests;
      && |r| >= 1 && r[0] == ShowCountdown(TimerText(Remaining(s.timer, input.now)), s.timer.phase == Work)
      && (Expired(s.timer, input.now) ==> |r| >= 3 && r[1] == HideCountdown && r[2] == BreakPrompt)
  {
    var s1 := ReloadSection(s, input.configMtime, input.fileConfig);
    TickRequests(s, input);
    assert s1.timer == s.timer && s1.countdownOverlay;
  }

  /** With Pomodoro disabled the section only hides the countdown overlay, if there is one. */
  lemma PomodoroSectionDisabled(s: State, now: int)
    requires !s.config.pomodoro.enabled
    ensures PomodoroSection(s, now).requests == if s.countdownOverlay then [HideCountdown] else []
    ensures PomodoroSection(s, now).state == s
  {
  }

  // ----- runs of ticks -----

  /** The state after ticks with the given inputs, with no user event in between. */
  function RunTicks(s: State, inputs: seq<TickInput>): State
    decreases |inputs|
  {
    if inputs == [] then s else RunTicks(Tick(s, inputs[0]).state, inputs[1..])
  }

  /** How many break prompts those ticks open. */
  function TickPrompts(s: State, inputs: seq<TickInput>): nat
    decreases |inputs|
  {
    if inputs == [] then 0
    else multiset(Tick(s, inputs[0]).requests)[BreakPrompt] + TickPrompts(Tick(s, inputs[0]).state, inputs[1..])
  }

  /** Once the prompt is pending, ticks leave the phase pending and open no prompt, whatever the configuration does. */
  lemma {:induction false} PendingTicks(s: State, inputs: seq<TickInput>)
    requires s.timer.phase == BreakPending
    ensures RunTicks(s, inputs).timer == s.timer
    ensures TickPrompts(s, inputs) == 0
    decreases |inputs|
  {
    if inputs != [] {
      TickTimer(s, inputs[0]);
      TickPromptCount(s, inputs[0]);
      PendingTicks(Tick(s, inputs[0]).state, inputs[1..]);
    }
  }

  /**
    However many ticks run between two user events, across configuration
    reloads and Pomodoro being switched off and on, they open at most one break
    prompt.
  */
  lemma {:induction false} TicksPromptAtMostOnce(s: State, inputs: seq<TickInput>)
    ensures TickPrompts(s, inputs) <= 1
    decreases |inputs|
  {
    if inputs != [] {
      var t := Tick(s, inputs[0]);
      TickPromptsOnEntry(s, inputs[0]);
      TickPromptCount(s, inputs[0]);
      if BreakPrompt in t.requests {
        PendingTicks(t.state, inputs[1..]);
      } else {
        TicksPromptAtMostOnce(t.state, inputs[1..]);
      }
    }
  }
}

=== FILE: settings.dfy ===
/**
  The reminder settings the application reads from its configuration document.
  Each reminder category has its own section; durations are whole minutes.
*/
module Settings {
  datatype PomodoroSettings = PomodoroSettings(enabled: bool, workMinutes: int, breakMinutes: int)
  datatype WaterSettings = WaterSettings(enabled: bool, intervalMinutes: int)
  datatype MealSettings = MealSettings(enabled: bool, timings: set<string>)

  datatype Config = Config(
    pomodoro: PomodoroSettings,
    water: WaterSettings,
    meals: MealSettings,
    autoStart: bool)

  /** The durations a well-formed configuration document holds are positive. */
  predicate PositiveDurations(c: Config) {
    c.pomodoro.workMinutes > 0 && c.pomodoro.breakMinutes > 0 && c.water.intervalMinutes > 0
  }
}
